=== FILE: README.md ===
# AttrakDiff survey page — a Dafny model

This project models the decision logic of the AttrakDiff survey tool: the
page that stores respondents' Likert answers (1–7), imports them in bulk from
CSV, averages them, and moves a selection cursor between respondents, and the
answer form that collects one respondent's answers. The page's React state
becomes an explicit `Survey.Page` record. It changes only through the user
actions the page offers (`Survey.Event`), and an action is possible only when
its control is on screen (`Survey.Enabled`).

Modules, one per component:

- `Wrappers` (wrappers.dfy): `Option` and `Result`.
- `Questionnaire` (questionnaire.dfy): the two catalogs, "completo" (28 questions) and "resumido" (10 questions); the Likert type; the respondent `Entry`.
- `CsvImport` (csv_import.dfy): the validator of `handleCSVUpload`, from parsed rows of cells to entries or an error, and the example file of `handleDownloadExample`.
- `Aggregate` (aggregate.dfy): `getAverageAnswers`. The source's row-by-row accumulation is proved equal to a column-sum reference. Numbers are `real`.
- `Form` (form.dfy): `AttrakDiffForm`. It covers the catalog choice, the answer slots, `handleChange`, the `handleSubmit` guard and the disabled state of the submit button.
- `Survey` (survey.dfy): the selection cursor as a tagged variant, every transition, the selection invariant over any run of actions, and what the page renders.

Behaviours of the program worth knowing, all kept by the model:

- A CSV value is accepted when `Number(cell)` lies in [1,7]. Non-integers such as `4.5` pass too.
- Data rows longer than the header are accepted, and all their cells after the label become answers. So such an entry has more answers than the catalog has questions.
- The form picks its catalog independently of the page, and the page stores whatever the form sends. So answer vectors of different lengths can sit side by side in the store. `Survey.MixedLengthsReachable` exhibits such a run. For this reason the averaging lemmas carry an explicit precondition that every entry has length `n`.
- The page's catalog radio reports only a change of value, so picking the catalog already active does nothing. Only picking the other catalog empties the store.
- The row number in an import error counts parsed, non-empty lines, with the header as line 1. It is not the physical line of the file.

## Model

| member | source | states |
|---|---|---|
| `CsvImport.Answers` | src/pages/AttrakDiffSurvey.tsx:62-65 | a row's value cells convert exactly when every cell is a number (not NaN) in [1,7]; the answers are then the parsed values, one per cell, in order |
| `CsvImport.Kept` | src/pages/AttrakDiffSurvey.tsx:58-60 | the rows the loop looks at, as a filter of the data rows; it never yields more rows than the file has (its content is characterised by the three lemmas below) |
| `CsvImport.KeptShape` | src/pages/AttrakDiffSurvey.tsx:58-60 | every row the loop looks at has at least `questions.length + 1` cells, and there are none exactly when every data row is short |
| `CsvImport.KeptFacts` | src/pages/AttrakDiffSurvey.tsx:58-60 | the rows the loop looks at are exactly the long-enough ones: every data row with at least `questions.length + 1` cells is kept, and no other row is |
| `CsvImport.KeptSplit` | src/pages/AttrakDiffSurvey.tsx:58-60 | the kept rows of two consecutive stretches of the file are those of the first followed by those of the second, so file order is preserved |
| `CsvImport.FirstRejected` | src/pages/AttrakDiffSurvey.tsx:58-65 | finds the first data row that is long enough but holds a bad value; there is none exactly when no such row exists, and every earlier row passes |
| `CsvImport.ScanRows` | src/pages/AttrakDiffSurvey.tsx:57-67 | the row loop fails exactly when some non-short row has a bad value, and it reports the line of the first such row; otherwise it yields one entry per non-short row, in order, named by cell 0 and answering with the remaining cells |
| `CsvImport.Validate` | src/pages/AttrakDiffSurvey.tsx:49-68 | each outcome is characterised both ways: the "CSV vazio" error exactly for empty input; the column-count error, carrying `n+1`, exactly when the header width is not `n+1`; the value error exactly when the header fits and some long-enough data row has a bad value; the import succeeds exactly when the header fits, no data row is rejected and at least one row is long enough; "no valid response" exactly when every data row is short; a value error names row `i+1` of the first bad row `i`; a success gives only entries of the active catalog with at least `n` answers, all in [1,7] |
| `CsvImport.ExampleRoundTrip` | src/pages/AttrakDiffSurvey.tsx:29-31 | the example rows (`nome` plus the question labels, then `Maria` with `4` for every question) pass validation and give exactly one entry, `Maria` answering 4 everywhere |
| `Aggregate.Sums` | src/pages/AttrakDiffSurvey.tsx:86-92 | accumulating the entries one after another into `n` running sums gives, at each position, the column sum over all entries (a missing answer adds nothing) |
| `Aggregate.SumSplit` | src/pages/AttrakDiffSurvey.tsx:88-92 | adding one more entry to the store adds that entry's answer to every column sum |
| `Aggregate.Average` | src/pages/AttrakDiffSurvey.tsx:84-94 | no entries give the empty list; otherwise one value per question, each the column sum divided by the number of entries |
| `Aggregate.AverageInScale` | src/pages/AttrakDiffSurvey.tsx:84-93 | when every entry answers exactly the `n` questions within [1,7], every average is within [1,7] |
| `Aggregate.AverageOfCopies` | src/pages/AttrakDiffSurvey.tsx:84-93 | `k` respondents with identical answers average to those answers |
| `Form.Initial` | src/components/AttrakDiffForm.tsx:18-22 | a new form uses the full catalog ("completo", 28 questions) with every answer unset |
| `Form.SelectCatalog` | src/components/AttrakDiffForm.tsx:18-27 | choosing a different catalog resets the answers to one unset slot per question of that catalog; choosing the current catalog keeps the answers |
| `Form.Change` | src/components/AttrakDiffForm.tsx:29-35 | answering question `idx` with `v` sets slot `idx` to `v` and keeps the catalog, the length and every other slot |
| `Form.StaysValid` | src/components/AttrakDiffForm.tsx:21-35 | catalog choices and answers keep one slot per question of the form's catalog |
| `Form.Submit` | src/components/AttrakDiffForm.tsx:37-46 | a submission is refused exactly when some answer is unset; otherwise the page receives every answer, in order, with the form's catalog, one per question |
| `Form.DisabledMatchesGuard` | src/components/AttrakDiffForm.tsx:112 | the submit button is disabled exactly when a submission is pending or the handler would refuse |
| `Form.FillingEverySlotSubmits` | src/components/AttrakDiffForm.tsx:29-46 | answering every question of a form makes the submission go through with exactly those answers |
| `Survey.SelectionEncoding` | src/pages/AttrakDiffSurvey.tsx:249-268 | the tagged cursor and the page's integer cursor (-1 new respondent, -2 aggregate, otherwise an index) map to each other without loss |
| `Survey.InvMatchesSource` | src/pages/AttrakDiffSurvey.tsx:246-273 | the invariant on the tagged cursor is the integer invariant: empty store means index 0, otherwise -1, -2 or an index below the store's length |
| `Survey.Initial` | src/pages/AttrakDiffSurvey.tsx:20-24 | the page starts with an empty store, cursor 0, the full catalog and no import error |
| `Survey.SwitchCatalog` | src/pages/AttrakDiffSurvey.tsx:125-130 | a catalog switch leaves an empty store with the cursor at 0, the chosen catalog and no import error (a submission still pending from the form can refill it; see "Left out") |
| `Survey.SwitchForgets` | src/pages/AttrakDiffSurvey.tsx:125-130 | the outcome of a catalog switch does not depend on what was stored before |
| `Survey.AddRandom` | src/pages/AttrakDiffSurvey.tsx:133-137 | random fill appends one entry with one answer per question of the active catalog, each in [1,7]; earlier entries are unchanged and the new one is selected |
| `Survey.AddSubmitted` | src/pages/AttrakDiffSurvey.tsx:262-272 | a form submission appends one entry holding the form's answers and catalog and keeps earlier entries |
| `Survey.SubmitSelectsNewEntry` | src/pages/AttrakDiffSurvey.tsx:262-272 | after a submission the new entry is selected, both on an empty store and when appending |
| `Survey.Upload` | src/pages/AttrakDiffSurvey.tsx:41-81 | an upload never changes the catalog; a valid file replaces the store and selects entry 0 with no error; every other outcome leaves the store and cursor untouched and records the error (or clears it when no file was chosen); the upload is taken as immediate (see "Left out") |
| `Survey.UploadSuccess` | src/pages/AttrakDiffSurvey.tsx:68-70 | after a successful import the store is non-empty, every entry is of the active catalog with all answers in [1,7], and the selection invariant holds (with the upload taking effect at once; see "Left out") |
| `Survey.UploadIdempotent` | src/pages/AttrakDiffSurvey.tsx:42-72 | uploading the same file twice in a row gives the same page as uploading it once |
| `Survey.Enabled` | src/pages/AttrakDiffSurvey.tsx:110-246 | an action is possible only when its control is rendered: respondent tabs, "Todos" and "Responder como outra pessoa" only with stored respondents ("Todos" with more than one), Home-tab controls only on the Home tab, catalog radio and upload only on the import tab |
| `Survey.Step` | src/pages/AttrakDiffSurvey.tsx:105-170 | one user action: a respondent tab selects that respondent, "Todos" selects the aggregate, "Responder como outra pessoa" selects the new-respondent form, a tab button opens that tab and keeps the cursor; only a catalog pick changes the catalog; only a tab click changes the tab; cursor and tab clicks leave the store, the catalog and the import error untouched; random fill and submit append exactly one entry and keep the earlier ones |
| `Survey.StepPreservesInv` | src/pages/AttrakDiffSurvey.tsx:99-137 | every action offered on screen (respondent tabs, "Todos", "Responder como outra pessoa", submit, random fill, import, a switch to the other catalog, tab change) keeps the selection invariant |
| `Survey.PickingActiveCatalogImpossible` | src/pages/AttrakDiffSurvey.tsx:183-186 | picking the catalog that is already active is not an action: the radio group reports only a change of value, so the store survives |
| `Survey.RunPreservesInv` | src/pages/AttrakDiffSurvey.tsx:99-273 | any sequence of on-screen actions keeps the selection invariant |
| `Survey.Render` | src/pages/AttrakDiffSurvey.tsx:246-274 | on a page that satisfies the invariant, the respondent chart shows the selected entry, whose index is in bounds; the average chart appears only for the aggregate cursor on a non-empty store; a form is shown exactly on the Home tab when the store is empty or a new respondent is being added |
| `Survey.ReachableRenders` | src/pages/AttrakDiffSurvey.tsx:249-253 | every page reachable from the first one satisfies the invariant, so the lookup of the selected respondent is in bounds (with submission taking effect at once; see "Left out") |
| `Survey.FormSubmitEnabled` | src/pages/AttrakDiffSurvey.tsx:261-273 | whenever a form is on screen, a submission from a valid form is an action the page accepts |
| `Survey.MixedLengthsReachable` | src/pages/AttrakDiffSurvey.tsx:262-266 | a short-form submission followed by a random fill of the full catalog leaves two entries of lengths 10 and 28 |

## Left out

- CSV parsing and writing (the PapaParse library): the model starts from rows of cells after empty lines are dropped. The example file is modelled as rows of cells, and its cell-level round trip assumes the library writes and reads back a cell unchanged.
- JavaScript's `Number(...)` coercion: it becomes a parameter `num: string -> Option<real>`, where `None` stands for NaN. Whitespace, decimals and `""` are left to that function.
- `Math.random()`: it becomes a sequence of draws in [0,1), one per question, supplied with the random-fill action.
- Floating-point division in the average: `real` arithmetic instead.
- Aggregate.Average: an entry longer than the catalog makes the JavaScript loop grow the sum array with NaN columns past `n`. The model keeps only the first `n` columns.
- The texts of the error messages and the fallback "Erro ao processar o CSV.": the error values carry the numbers the messages show.
- File reading, the download (Blob, URL, anchor click), toasts and the reset of the file input: I/O. An upload takes effect at once: the model validates against the catalog active when the result is stored. `Survey.UploadSuccess`'s "every entry is of the active catalog" depends on this. In the program, the parser's completion callback runs after the file has been read, and it still uses the catalog from the moment the file was chosen. If the user switches catalog while the file is being read, the header is checked against the old catalog's column count, and the stored entries are tagged with the old catalog while the page shows the new one. A failed import's message also reappears after the switch cleared it.
- The 500 ms submission delay: a submission takes effect at once. The `submitting` flag therefore appears only as a parameter of `Form.SubmitDisabled`. The selection invariant (`Survey.RunPreservesInv`, `Survey.ReachableRenders`) and "a switch empties the store" (`Survey.SwitchCatalog`) hold only because of this. In the program, the form calls the page's callback from a timer that is never cancelled. That callback still holds the store as it was when the user clicked. Two runs break the promises:
  - Submit the first form, then click random fill twice within 500 ms. The store becomes `[r1, r2]` with cursor 1. The timer then sets the store to the single submitted entry while the cursor stays at 1, so the chart's `results[1]` lookup fails.
  - Submit from the new-respondent form, then switch catalog within 500 ms. The timer brings back the old entries plus the new one, all from the old catalog.
- Form.Change: requires an index inside the answer vector. Its only caller passes the index of a rendered question.
- The form's own state inside the page: each time the page shows a form it is a fresh one (`Form.Initial`). Page actions carry the submitted values and catalog rather than a form state.
- The catalogs' question texts (src/lib/attrakdiff is not part of this model) and the chart component: only the catalog lengths 28 and 10 are used.
- Rendering, styling and navigation, including the static pages src/pages/Index.tsx and src/pages/NotFound.tsx.

=== FILE: aggregate.dfy ===
/** The aggregate view: the column-wise mean of the stored answers, computed
    over `real` instead of IEEE doubles. */
module Aggregate {
  import opened Questionnaire

  /** Entry `e`'s contribution to column `i`; an entry with fewer answers
      adds nothing there. */
  function Cell(e: Entry, i: nat): real {
    if i < |e.answers| then e.answers[i] else 0.0
  }

  /** Reference definition: the sum of column `i`, entry by entry from the
      front. */
  function ColumnSum(rs: seq<Entry>, i: nat): real
    decreases |rs|
  {
    if |rs| == 0 then 0.0 else Cell(rs[0], i) + ColumnSum(rs[1..], i)
  }

  /** Adding one entry's answers into the running sums, position by
      position. */
  function AddInto(sum: seq<real>, answers: seq<real>): seq<real> {
    seq(|sum|, i requires 0 <= i < |sum| => sum[i] + (if i < |answers| then answers[i] else 0.0))
  }

  /** The accumulation as the page does it: start from `n` zeros and add the
      entries in order. */
  function Sums(rs: seq<Entry>, n: nat): (s: seq<real>)
    ensures |s| == n
    ensures forall i :: 0 <= i < n ==> s[i] == ColumnSum(rs, i)
    decreases |rs|
  {
    if |rs| == 0 then seq(n, _ => 0.0)
    else
      var front := rs[..|rs| - 1];
      SumSplit(front, rs[|rs| - 1]);
      assert front + [rs[|rs| - 1]] == rs;
      AddInto(Sums(front, n), rs[|rs| - 1].answers)
  }

  /** Column sums split over a last entry. */
  lemma {:induction false} SumSplit(rs: seq<Entry>, e: Entry)
    ensures forall i: nat :: ColumnSum(rs + [e], i) == ColumnSum(rs, i) + Cell(e, i)
    decreases |rs|
  {
    if |rs| > 0 {
      assert (rs + [e])[1..] == rs[1..] + [e];
      SumSplit(rs[1..], e);
    } else {
      assert (rs + [e])[1..] == [];
    }
  }

  /** The average answer per question: empty when there are no entries,
      otherwise column sum divided by the number of entries. */
  function Average(rs: seq<Entry>, n: nat): (r: seq<real>)
    ensures |rs| == 0 ==> r == []
    ensures |rs| > 0 ==> |r| == n
    ensures |rs| > 0 ==> forall i :: 0 <= i < n ==> r[i] == ColumnSum(rs, i) / (|rs| as real)
  {
    if |rs| == 0 then []
    else
      var sum := Sums(rs, n);
      seq(n, i requires 0 <= i < n => sum[i] / (|rs| as real))
  }

  /** Every entry answers exactly `n` questions, all within [1,7]. */
  predicate Uniform(rs: seq<Entry>, n: nat) {
    forall k :: 0 <= k < |rs| ==> |rs[k].answers| == n && AllInScale(rs[k].answers)
  }

  /** With uniform entries a column sum lies between |rs| and 7|rs|. */
  lemma {:induction false} ColumnSumBounds(rs: seq<Entry>, n: nat, i: nat)
    requires Uniform(rs, n) && i < n
    ensures |rs| as real <= ColumnSum(rs, i) <= 7.0 * (|rs| as real)
    decreases |rs|
  {
    if |rs| > 0 {
      assert Uniform(rs[1..], n) by {
        forall k | 0 <= k < |rs[1..]| ensures |rs[1..][k].answers| == n && AllInScale(rs[1..][k].answers) {
          assert rs[1..][k] == rs[k + 1];
        }
      }
      ColumnSumBounds(rs[1..], n, i);
      assert InScale(rs[0].answers[i]);
    }
  }

  /** A quotient of a sum bounded by m and 7m by m lies in [1,7]. */
  lemma QuotientInScale(s: real, m: real)
    requires m > 0.0 && m <= s <= 7.0 * m
    ensures InScale(s / m)
  {
  }

  /** The mean of uniform entries has one value per question, each in [1,7]. */
  lemma AverageInScale(rs: seq<Entry>, n: nat)
    requires |rs| > 0 && Uniform(rs, n)
    ensures |Average(rs, n)| == n
    ensures AllInScale(Average(rs, n))
  {
    var avg := Average(rs, n);
    forall i | 0 <= i < n ensures InScale(avg[i]) {
      ColumnSumBounds(rs, n, i);
      QuotientInScale(ColumnSum(rs, i), |rs| as real);
    }
  }

  /** All respondents giving the same answers average to those answers. */
  lemma {:induction false} AverageOfCopies(e: Entry, k: nat, n: nat)
    requires k > 0 && |e.answers| == n
    ensures Average(seq(k, _ => e), n) == e.answers
  {
    var rs := seq(k, _ => e);
    var avg := Average(rs, n);
    forall i | 0 <= i < n ensures avg[i] == e.answers[i] {
      CopiesSum(e, k, i);
      Cancel(k as real, e.answers[i]);
    }
    assert |avg| == |e.answers|;
  }

  lemma Cancel(m: real, x: real)
    requires m > 0.0
    ensures (m * x) / m == x
  {
  }

  lemma {:induction false} CopiesSum(e: Entry, k: nat, i: nat)
    ensures ColumnSum(seq(k, _ => e), i) == (k as real) * Cell(e, i)
    decreases k
  {
    if k > 0 {
      assert seq(k, _ => e)[1..] == seq(k - 1, _ => e);
      CopiesSum(e, k - 1, i);
    }
  }
}

=== FILE: csv_import.dfy ===
/** The CSV import validator of the survey page and the example file it
    offers for download. The model starts from rows of cells, after the CSV
    parser has split the file and dropped empty lines. */
module CsvImport {
  import opened Wrappers
  import opened Questionnaire

  /** One parsed CSV line. */
  type Row = seq<string>

  /** JavaScript's `Number(cell)` coercion, abstracted: `None` stands for NaN. */
  type NumberParse = string -> Option<real>

  /** The errors the import reports; each carries what its message shows. */
  datatype CsvError =
    | EmptyCsv                   // "CSV vazio."
    | ColumnCount(expected: nat) // the file needs `expected` columns
    | BadValues(line: nat)       // line `line`: values must be numbers from 1 to 7
    | NoValidResponses           // no valid response found in the file
    | ReadFailed                 // the file could not be read

  /** Cells per row the header must have, and data rows need at least:
      the label plus one per question. */
  function ColumnsFor(c: Catalog): nat {
    Size(c) + 1
  }

  /** A cell passes when it is a number (not NaN) within [1,7]. */
  predicate ValidCell(num: NumberParse, cell: string) {
    num(cell).Some? && InScale(num(cell).value)
  }

  /** The answers of a row's value cells, or `None` when some cell is NaN or
      outside [1,7]. */
  function Answers(num: NumberParse, cells: seq<string>): (r: Option<seq<real>>)
    ensures r.Some? <==> forall j :: 0 <= j < |cells| ==> ValidCell(num, cells[j])
    ensures r.Some? ==> |r.value| == |cells|
    ensures r.Some? ==> forall j :: 0 <= j < |cells| ==> num(cells[j]) == Some(r.value[j])
    ensures r.Some? ==> AllInScale(r.value)
    decreases |cells|
  {
    if |cells| == 0 then Some([])
    else if !ValidCell(num, cells[0]) then None
    else
      match Answers(num, cells[1..])
      case None => None
      case Some(rest) => Some([num(cells[0]).value] + rest)
  }

  /** A data row the loop keeps looking at: shorter rows are skipped. */
  predicate Accepted(c: Catalog, row: Row) {
    |row| >= ColumnsFor(c)
  }

  /** A data row that aborts the whole import. */
  predicate Rejected(num: NumberParse, c: Catalog, row: Row) {
    Accepted(c, row) && Answers(num, row[1..]).None?
  }

  /** The data rows that are not skipped, in file order. */
  function Kept(c: Catalog, rows: seq<Row>): (r: seq<Row>)
    ensures |r| <= |rows|
    decreases |rows|
  {
    if |rows| == 0 then []
    else (if Accepted(c, rows[0]) then [rows[0]] else []) + Kept(c, rows[1..])
  }

  /** Every kept row is long enough, and nothing is kept exactly when every
      row is short. */
  lemma {:induction false} KeptShape(c: Catalog, rows: seq<Row>)
    ensures |Kept(c, rows)| <= |rows|
    ensures forall j :: 0 <= j < |Kept(c, rows)| ==> Accepted(c, Kept(c, rows)[j])
    ensures |Kept(c, rows)| == 0 <==> forall k :: 0 <= k < |rows| ==> !Accepted(c, rows[k])
    decreases |rows|
  {
    if |rows| > 0 {
      KeptShape(c, rows[1..]);
      KeptUnfold(c, rows);
      forall k | 0 <= k < |rows| && !Accepted(c, rows[k]) && k > 0 ensures !Accepted(c, rows[1..][k - 1]) {
      }
    }
  }

  /** Exactly the long-enough rows are kept: each long-enough row is kept,
      and nothing else is. */
  lemma {:induction false} KeptFacts(c: Catalog, rows: seq<Row>)
    ensures forall k :: 0 <= k < |rows| && Accepted(c, rows[k]) ==> rows[k] in Kept(c, rows)
    ensures forall x :: x in Kept(c, rows) ==> x in rows && Accepted(c, x)
    decreases |rows|
  {
    if |rows| > 0 {
      KeptFacts(c, rows[1..]);
      KeptUnfold(c, rows);
      forall k | 0 <= k < |rows| && Accepted(c, rows[k]) ensures rows[k] in Kept(c, rows) {
        if k > 0 {
          assert rows[k] == rows[1..][k - 1];
        }
      }
    }
  }

  /** Keeping distributes over consecutive stretches of rows, so the kept
      rows come in file order. */
  lemma {:induction false} KeptSplit(c: Catalog, a: seq<Row>, b: seq<Row>)
    ensures Kept(c, a + b) == Kept(c, a) + Kept(c, b)
    decreases |a|
  {
    if |a| == 0 {
      assert a + b == b;
    } else {
      var ab := a + b;
      assert ab[0] == a[0] && ab[1..] == a[1..] + b;
      var head := if Accepted(c, a[0]) then [a[0]] else [];
      var restA, keptB := Kept(c, a[1..]), Kept(c, b);
      KeptSplit(c, a[1..], b);
      KeptUnfold(c, ab);
      KeptUnfold(c, a);
      assert head + (restA + keptB) == (head + restA) + keptB;
    }
  }

  lemma KeptUnfold(c: Catalog, rows: seq<Row>)
    requires |rows| > 0
    ensures Kept(c, rows) == (if Accepted(c, rows[0]) then [rows[0]] else []) + Kept(c, rows[1..])
  {
  }

  /** The entry built from an accepted row that passed the value check. */
  predicate IsEntryOf(num: NumberParse, c: Catalog, e: Entry, row: Row) {
    |row| >= 1 && e.name == Some(row[0]) && Answers(num, row[1..]) == Some(e.answers) && e.catalog == c
  }

  /** The position of the first rejected row, if any. */
  function FirstRejected(num: NumberParse, c: Catalog, rows: seq<Row>): (r: Option<nat>)
    ensures r.None? <==> forall k :: 0 <= k < |rows| ==> !Rejected(num, c, rows[k])
    ensures r.Some? ==> r.value < |rows| && Rejected(num, c, rows[r.value])
    ensures r.Some? ==> forall k :: 0 <= k < r.value ==> !Rejected(num, c, rows[k])
    decreases |rows|
  {
    if |rows| == 0 then None
    else if Rejected(num, c, rows[0]) then Some(0)
    else
      match FirstRejected(num, c, rows[1..])
      case None => None
      case Some(k) => Some(k + 1)
  }

  /** The loop over the data rows. `line` is the 1-based position of
      `rows[0]` among the parsed rows (the header is line 1). It fails with
      the line of the first rejected row; otherwise it yields one entry per
      kept row, in order. */
  function ScanRows(num: NumberParse, c: Catalog, rows: seq<Row>, line: nat): (r: Result<seq<Entry>, nat>)
    ensures r.Failure? <==> FirstRejected(num, c, rows).Some?
    ensures r.Failure? ==> r.error == line + FirstRejected(num, c, rows).value
    ensures r.Success? ==> EntriesFor(num, c, r.value, rows)
    decreases |rows|
  {
    if |rows| == 0 then Success([])
    else if Rejected(num, c, rows[0]) then Failure(line)
    else
      match ScanRows(num, c, rows[1..], line + 1)
      case Failure(l) => Failure(l)
      case Success(es) =>
        if Accepted(c, rows[0]) then
          var e := Entry(Some(rows[0][0]), Answers(num, rows[0][1..]).value, c);
          EntriesOfKeptRow(num, c, rows, e, es);
          Success([e] + es)
        else
          EntriesOfSkippedRow(num, c, rows, es);
          Success(es)
  }

  /** `es` holds one entry per kept row of `rows`, in the same order. */
  predicate EntriesFor(num: NumberParse, c: Catalog, es: seq<Entry>, rows: seq<Row>) {
    var kept := Kept(c, rows);
    |es| == |kept| && forall j :: 0 <= j < |es| ==> IsEntryOf(num, c, es[j], kept[j])
  }

  lemma EntriesOfKeptRow(num: NumberParse, c: Catalog, rows: seq<Row>, e: Entry, es: seq<Entry>)
    requires |rows| > 0 && Accepted(c, rows[0]) && IsEntryOf(num, c, e, rows[0])
    requires EntriesFor(num, c, es, rows[1..])
    ensures EntriesFor(num, c, [e] + es, rows)
  {
    assert Kept(c, rows) == [rows[0]] + Kept(c, rows[1..]);
  }

  lemma EntriesOfSkippedRow(num: NumberParse, c: Catalog, rows: seq<Row>, es: seq<Entry>)
    requires |rows| > 0 && !Accepted(c, rows[0])
    requires EntriesFor(num, c, es, rows[1..])
    ensures EntriesFor(num, c, es, rows)
  {
    assert Kept(c, rows) == Kept(c, rows[1..]);
  }

  /** The facts about `data[1..]` restated on the positions of `data`, where
      the header is position 0. */
  lemma DataRows(num: NumberParse, c: Catalog, data: seq<Row>)
    requires |data| > 0
    ensures FirstRejected(num, c, data[1..]).Some? <==> exists i :: 1 <= i < |data| && Rejected(num, c, data[i])
    ensures FirstRejected(num, c, data[1..]).Some? ==>
      var i := FirstRejected(num, c, data[1..]).value + 1;
      && i < |data| && Rejected(num, c, data[i])
      && forall i' :: 1 <= i' < i ==> !Rejected(num, c, data[i'])
    ensures |Kept(c, data[1..])| == 0 <==> forall i :: 1 <= i < |data| ==> !Accepted(c, data[i])
    ensures forall j :: 0 <= j < |Kept(c, data[1..])| ==> Accepted(c, Kept(c, data[1..])[j])
  {
    var rows := data[1..];
    assert forall k :: 0 <= k < |rows| ==> rows[k] == data[k + 1];
    KeptShape(c, rows);
  }

  /** The whole import of parsed rows against the active catalog. */
  function Validate(num: NumberParse, c: Catalog, data: seq<Row>): (r: Result<seq<Entry>, CsvError>)
    ensures r == Failure(EmptyCsv) <==> |data| == 0
    ensures r == Failure(ColumnCount(ColumnsFor(c))) <==> |data| > 0 && |data[0]| != ColumnsFor(c)
    ensures r.Failure? ==> !r.error.ReadFailed? && (r.error.ColumnCount? ==> r.error.expected == ColumnsFor(c))
    ensures r.Failure? && r.error.BadValues? <==>
      && |data| > 0
      && |data[0]| == ColumnsFor(c)
      && (exists i :: 1 <= i < |data| && Rejected(num, c, data[i]))
    ensures r.Success? <==>
      && |data| > 0
      && |data[0]| == ColumnsFor(c)
      && (forall i :: 1 <= i < |data| ==> !Rejected(num, c, data[i]))
      && (exists i :: 1 <= i < |data| && Accepted(c, data[i]))
    ensures r == Failure(NoValidResponses) <==>
      && |data| > 0
      && |data[0]| == ColumnsFor(c)
      && (forall i :: 1 <= i < |data| ==> !Accepted(c, data[i]))
    ensures r.Failure? && r.error.BadValues? ==>
      && 2 <= r.error.line <= |data|
      && Rejected(num, c, data[r.error.line - 1])
      && (forall i :: 1 <= i < r.error.line - 1 ==> !Rejected(num, c, data[i]))
    ensures r.Success? ==> |r.value| == |Kept(c, data[1..])| > 0
    ensures r.Success? ==> forall j :: 0 <= j < |r.value| ==> IsEntryOf(num, c, r.value[j], Kept(c, data[1..])[j])
    ensures r.Success? ==> forall j :: 0 <= j < |r.value| ==>
      r.value[j].catalog == c && |r.value[j].answers| >= Size(c) && AllInScale(r.value[j].answers)
  {
    if |data| == 0 then Failure(EmptyCsv)
    else if |data[0]| != ColumnsFor(c) then Failure(ColumnCount(ColumnsFor(c)))
    else
      var rows := data[1..];
      DataRows(num, c, data);
      match ScanRows(num, c, rows, 2)
      case Failure(l) => Failure(BadValues(l))
      case Success(es) => if |es| == 0 then Failure(NoValidResponses) else Success(es)
  }

  /** `n` copies of a value. */
  function Repeat<T>(x: T, n: nat): (r: seq<T>)
    ensures |r| == n
    ensures forall i :: 0 <= i < n ==> r[i] == x
  {
    seq(n, _ => x)
  }

  /** The downloadable example: a header naming the questions and one row for
      "Maria" answering 4 everywhere, as cells. */
  function ExampleRows(labels: seq<string>): seq<Row> {
    [["nome"] + labels, ["Maria"] + Repeat("4", |labels|)]
  }

  /** A run of cells that all read as `v` converts to a run of `v`. */
  lemma {:induction false} AnswersOfRepeat(num: NumberParse, cell: string, v: real, n: nat)
    requires num(cell) == Some(v) && InScale(v)
    ensures Answers(num, Repeat(cell, n)) == Some(Repeat(v, n))
  {
    if n > 0 {
      assert Repeat(cell, n)[1..] == Repeat(cell, n - 1);
      AnswersOfRepeat(num, cell, v, n - 1);
      assert Repeat(v, n) == [v] + Repeat(v, n - 1);
    }
  }

  /** Importing the example file for the active catalog yields exactly one
      entry, "Maria" answering 4 to every question. */
  lemma ExampleRoundTrip(num: NumberParse, c: Catalog, labels: seq<string>)
    requires |labels| == Size(c)
    requires num("4") == Some(4.0)
    ensures Validate(num, c, ExampleRows(labels)) == Success([Entry(Some("Maria"), Repeat(4.0, Size(c)), c)])
  {
    var data := ExampleRows(labels);
    var row := data[1];
    assert row[1..] == Repeat("4", |labels|);
    AnswersOfRepeat(num, "4", 4.0, |labels|);
    assert data[1..] == [row];
    assert [row][1..] == [];
    assert row[0] == "Maria";
    var rows := [row];
    assert rows[0] == row && rows[1..] == [];
    assert ScanRows(num, c, rows[1..], 3) == Success([]);
    var e := Entry(Some("Maria"), Repeat(4.0, Size(c)), c);
    assert ScanRows(num, c, rows, 2) == Success([e] + []);
    assert [e] + [] == [e];
  }
}

=== FILE: form.dfy ===
/** The answer form: it picks its own catalog, keeps one optional Likert
    answer per question and hands a complete answer vector to the page. */
module Form {
  import opened Wrappers
  import opened Questionnaire

  /** The form's state: its own catalog choice and one slot per question. */
  datatype FormState = FormState(catalog: Catalog, answers: seq<Option<Likert>>)

  /** What a submit attempt does: nothing (some question is unanswered), or
      passes the answers and the form's catalog to the page. */
  datatype SubmitOutcome = Blocked | Sent(values: seq<Likert>, catalog: Catalog)

  /** The form keeps one slot per question of its catalog. */
  predicate Valid(f: FormState) {
    |f.answers| == Size(f.catalog)
  }

  predicate AllBlank(a: seq<Option<Likert>>) {
    forall i :: 0 <= i < |a| ==> a[i].None?
  }

  predicate Complete(a: seq<Option<Likert>>) {
    forall i :: 0 <= i < |a| ==> a[i].Some?
  }

  function Blank(c: Catalog): seq<Option<Likert>> {
    seq(Size(c), _ => None)
  }

  /** A freshly mounted form: the full catalog, nothing answered. */
  function Initial(): (f: FormState)
    ensures Valid(f) && AllBlank(f.answers)
    ensures f.catalog == Completo && |f.answers| == 28
  {
    FormState(Completo, Blank(Completo))
  }

  /** Picking a catalog. The reset of the answers is keyed on the catalog, so
      picking the current one keeps the answers. */
  function SelectCatalog(f: FormState, c: Catalog): (g: FormState)
    ensures g.catalog == c
    ensures c != f.catalog ==> Valid(g) && AllBlank(g.answers)
    ensures c == f.catalog ==> g.answers == f.answers
  {
    if c == f.catalog then f else FormState(c, Blank(c))
  }

  /** Clicking value `v` for question `idx`. */
  function Change(f: FormState, idx: nat, v: Likert): (g: FormState)
    requires idx < |f.answers|
    ensures g.catalog == f.catalog && |g.answers| == |f.answers|
    ensures g.answers[idx] == Some(v)
    ensures forall i :: 0 <= i < |f.answers| && i != idx ==> g.answers[i] == f.answers[i]
  {
    f.(answers := f.answers[idx := Some(v)])
  }

  /** The answers of a complete vector, without the option wrapper. */
  function Unwrap(a: seq<Option<Likert>>): (r: seq<Likert>)
    requires Complete(a)
    ensures |r| == |a|
    ensures forall i :: 0 <= i < |a| ==> a[i] == Some(r[i])
    decreases |a|
  {
    if |a| == 0 then [] else [a[0].value] + Unwrap(a[1..])
  }

  /** The submit handler: refuses while any question is unanswered. */
  function Submit(f: FormState): (r: SubmitOutcome)
    ensures r.Blocked? <==> exists i :: 0 <= i < |f.answers| && f.answers[i].None?
    ensures r.Sent? ==> r.catalog == f.catalog && |r.values| == |f.answers|
    ensures r.Sent? ==> forall i :: 0 <= i < |f.answers| ==> f.answers[i] == Some(r.values[i])
    ensures r.Sent? && Valid(f) ==> |r.values| == Size(r.catalog)
  {
    if Complete(f.answers) then Sent(Unwrap(f.answers), f.catalog) else Blocked
  }

  /** The submit button's disabled state. */
  predicate SubmitDisabled(f: FormState, submitting: bool) {
    submitting || exists i :: 0 <= i < |f.answers| && f.answers[i].None?
  }

  /** When no submission is pending, the button is disabled exactly when the
      handler would refuse. */
  lemma DisabledMatchesGuard(f: FormState, submitting: bool)
    ensures SubmitDisabled(f, submitting) <==> submitting || Submit(f).Blocked?
  {
  }

  /** Neither picking a catalog nor answering a question breaks `Valid`. */
  lemma StaysValid(f: FormState, c: Catalog, idx: nat, v: Likert)
    requires Valid(f)
    ensures Valid(SelectCatalog(f, c))
    ensures idx < |f.answers| ==> Valid(Change(f, idx, v))
  {
  }

  /** Answering questions 0, 1, ..., n-1 of a valid form in turn makes the submit go through with exactly those answers. */
  lemma {:induction false} FillingEverySlotSubmits(f: FormState, vs: seq<Likert>)
    requires Valid(f) && |vs| == |f.answers|
    ensures Submit(FillFrom(f, vs, 0)) == Sent(vs, f.catalog)
  {
    FillFromFacts(f, vs, 0);
    var g := FillFrom(f, vs, 0);
    var r := Submit(g);
    assert r.Sent?;
    assert r.values == vs;
  }

  /** Answering question `k`, `k+1`, ... with `vs[k]`, `vs[k+1]`, ... */
  function FillFrom(f: FormState, vs: seq<Likert>, k: nat): FormState
    requires |vs| == |f.answers| && k <= |vs|
    decreases |vs| - k
  {
    if k == |vs| then f else FillFrom(Change(f, k, vs[k]), vs, k + 1)
  }

  lemma {:induction false} FillFromFacts(f: FormState, vs: seq<Likert>, k: nat)
    requires |vs| == |f.answers| && k <= |vs|
    ensures FillFrom(f, vs, k).catalog == f.catalog
    ensures |FillFrom(f, vs, k).answers| == |vs|
    ensures forall i :: k <= i < |vs| ==> FillFrom(f, vs, k).answers[i] == Some(vs[i])
    ensures forall i :: 0 <= i < k ==> FillFrom(f, vs, k).answers[i] == f.answers[i]
    decreases |vs| - k
  {
    if k < |vs| {
      FillFromFacts(Change(f, k, vs[k]), vs, k + 1);
    }
  }
}

=== FILE: questionnaire.dfy ===
/** The AttrakDiff question catalogs, the Likert scale and the respondent
    entries kept by the survey page. */
module Questionnaire {
  import opened Wrappers

  /** The two catalogs: "completo" (the full list) and "resumido" (the short
      list). Their question texts are not part of this model, only their
      lengths. */
  datatype Catalog = Completo | Resumido

  /** Number of questions in a catalog. */
  function Size(c: Catalog): nat {
    match c
    case Completo => 28
    case Resumido => 10
  }

  /** One answer picked on the form: an integer from 1 to 7. */
  type Likert = x: int | 1 <= x <= 7 witness 1

  /** The range check applied to every imported number. */
  predicate InScale(v: real) {
    1.0 <= v <= 7.0
  }

  predicate AllInScale(vs: seq<real>) {
    forall i :: 0 <= i < |vs| ==> InScale(vs[i])
  }

  /** One respondent: an optional name (the CSV label column), the answers
      as JavaScript numbers, and the catalog the answers were given against. */
  datatype Entry = Entry(name: Option<string>, answers: seq<real>, catalog: Catalog)

  /** Form answers handed to the page become plain numbers. */
  function ToReals(vs: seq<Likert>): (r: seq<real>)
    ensures |r| == |vs|
    ensures forall i :: 0 <= i < |vs| ==> r[i] == vs[i] as real
    ensures AllInScale(r)
  {
    seq(|vs|, i requires 0 <= i < |vs| => vs[i] as real)
  }
}

=== FILE: survey.dfy ===
/** The survey page: the stored respondents, the selection cursor, the
    active catalog, the import error and the active tab, changed only by the
    user actions the page offers. */
module Survey {
  import opened Wrappers
  import opened Questionnaire
  import opened CsvImport
  import opened Aggregate
  import Form

  /** The selection cursor: one respondent, the blank form for a new
      respondent (-1 in the page's integer encoding) or the aggregate view
      (-2). */
  datatype Selection = Viewing(index: nat) | NewRespondent | AllRespondents

  /** The two top tabs: "Home" (answers and charts) and import/export. */
  datatype Tab = Responses | ImportExport

  datatype Page = Page(
    results: seq<Entry>,
    selected: Selection,
    catalog: Catalog,
    csvError: Option<CsvError>,
    tab: Tab)

  /** The page's integer encoding of the cursor. */
  function SourceIndex(s: Selection): int {
    match s
    case Viewing(i) => i
    case NewRespondent => -1
    case AllRespondents => -2
  }

  /** Reading an integer cursor back; integers below -2 mean nothing. */
  function FromSourceIndex(i: int): Option<Selection> {
    if i >= 0 then Some(Viewing(i))
    else if i == -1 then Some(NewRespondent)
    else if i == -2 then Some(AllRespondents)
    else None
  }

  /** The tagged cursor and the integer one carry the same information. */
  lemma SelectionEncoding(s: Selection, i: int)
    ensures FromSourceIndex(SourceIndex(s)) == Some(s)
    ensures FromSourceIndex(i).Some? ==> SourceIndex(FromSourceIndex(i).value) == i
    ensures FromSourceIndex(i).None? <==> i < -2
  {
  }

  /** The selection invariant: with no respondents the cursor is at 0;
      otherwise a respondent cursor points at a stored entry. */
  predicate Inv(p: Page) {
    if |p.results| == 0 then p.selected == Viewing(0)
    else p.selected.Viewing? ==> p.selected.index < |p.results|
  }

  /** The same invariant on the page's integer cursor. */
  predicate SourceInv(len: nat, idx: int) {
    if len == 0 then idx == 0 else idx == -1 || idx == -2 || 0 <= idx < len
  }

  lemma InvMatchesSource(p: Page)
    ensures Inv(p) <==> SourceInv(|p.results|, SourceIndex(p.selected))
  {
  }

  /** The page as first shown. */
  function Initial(): (p: Page)
    ensures Inv(p) && p.results == [] && p.catalog == Completo && p.csvError == None
  {
    Page([], Viewing(0), Completo, None, Responses)
  }

  /** Choosing the catalog on the import tab. */
  function SwitchCatalog(p: Page, c: Catalog): (q: Page)
    ensures Inv(q) && q.results == [] && q.catalog == c && q.csvError == None
  {
    p.(catalog := c, results := [], selected := Viewing(0), csvError := None)
  }

  /** Switching forgets everything stored: the outcome depends only on the
      catalog chosen and the tab shown. */
  lemma SwitchForgets(p1: Page, p2: Page, c: Catalog)
    requires p1.tab == p2.tab
    ensures SwitchCatalog(p1, c) == SwitchCatalog(p2, c)
  {
  }

  /** Values of `Math.random()`: each in [0,1). */
  predicate UnitDraws(ds: seq<real>) {
    forall i :: 0 <= i < |ds| ==> 0.0 <= ds[i] < 1.0
  }

  /** `Math.floor(d * 7) + 1`, which lands on the Likert scale. */
  function RandomAnswer(d: real): Likert
    requires 0.0 <= d < 1.0
  {
    (d * 7.0).Floor + 1
  }

  /** The random-fill button: one random answer per question of the active
      catalog, appended as a new respondent, which becomes selected. */
  function AddRandom(p: Page, ds: seq<real>): (q: Page)
    requires |ds| == Size(p.catalog) && UnitDraws(ds)
    ensures |q.results| == |p.results| + 1 && q.results[..|p.results|] == p.results
    ensures q.selected == Viewing(|p.results|)
    ensures q.results[|p.results|].catalog == p.catalog
    ensures |q.results[|p.results|].answers| == Size(p.catalog)
    ensures AllInScale(q.results[|p.results|].answers)
    ensures q.catalog == p.catalog && q.csvError == p.csvError && q.tab == p.tab
  {
    var answers := seq(|ds|, i requires 0 <= i < |ds| => RandomAnswer(ds[i]) as real);
    p.(results := p.results + [Entry(None, answers, p.catalog)], selected := Viewing(|p.results|))
  }

  /** A form submission with the form's own answers and catalog. With no
      respondents yet the store becomes that one entry and the cursor is not
      touched; otherwise the entry is appended and selected. */
  function AddSubmitted(p: Page, vs: seq<Likert>, fc: Catalog): (q: Page)
    ensures |q.results| == |p.results| + 1 && q.results[..|p.results|] == p.results
    ensures q.results[|p.results|] == Entry(None, ToReals(vs), fc)
    ensures q.catalog == p.catalog && q.csvError == p.csvError && q.tab == p.tab
  {
    var e := Entry(None, ToReals(vs), fc);
    if |p.results| == 0 then p.(results := [e])
    else p.(results := p.results + [e], selected := Viewing(|p.results|))
  }

  /** In both branches the new respondent ends up selected; the first one
      only because the invariant keeps the cursor at 0 on an empty store. */
  lemma SubmitSelectsNewEntry(p: Page, vs: seq<Likert>, fc: Catalog)
    requires Inv(p)
    ensures AddSubmitted(p, vs, fc).selected == Viewing(|p.results|)
    ensures Inv(AddSubmitted(p, vs, fc))
  {
  }

  /** What the file picker delivers: nothing chosen, a read failure, or the
      parsed non-empty lines. */
  datatype FileOutcome = NoFile | ReadError | Parsed(rows: seq<Row>)

  /** The CSV upload: the error is cleared first; a valid file replaces the
      store and selects the first entry; any failure only sets the error. */
  function Upload(num: NumberParse, p: Page, file: FileOutcome): (q: Page)
    ensures q.catalog == p.catalog && q.tab == p.tab
    ensures (file.Parsed? && Validate(num, p.catalog, file.rows).Success?) || (q.results == p.results && q.selected == p.selected)
    ensures file.Parsed? && Validate(num, p.catalog, file.rows).Success? ==>
      && q.results == Validate(num, p.catalog, file.rows).value
      && q.selected == Viewing(0) && q.csvError == None
    ensures file.Parsed? && Validate(num, p.catalog, file.rows).Failure? ==>
      q.csvError == Some(Validate(num, p.catalog, file.rows).error)
    ensures file == ReadError ==> q.csvError == Some(ReadFailed)
    ensures file == NoFile ==> q == p.(csvError := None)
  {
    match file
    case NoFile => p.(csvError := None)
    case ReadError => p.(csvError := Some(ReadFailed))
    case Parsed(rows) =>
      match Validate(num, p.catalog, rows)
      case Failure(e) => p.(csvError := Some(e))
      case Success(es) => p.(results := es, selected := Viewing(0), csvError := None)
  }

  /** A successful import leaves only entries of the active catalog, with at
      least one answer per question, all in [1,7]. */
  lemma UploadSuccess(num: NumberParse, p: Page, rows: seq<Row>)
    requires Validate(num, p.catalog, rows).Success?
    ensures var q := Upload(num, p, Parsed(rows));
      && Inv(q) && |q.results| > 0
      && forall k :: 0 <= k < |q.results| ==>
           q.results[k].catalog == p.catalog && |q.results[k].answers| >= Size(p.catalog)
           && AllInScale(q.results[k].answers)
  {
  }

  /** Uploading the same file twice gives the same page as uploading it
      once: the store is replaced, never appended to. */
  lemma UploadIdempotent(num: NumberParse, p: Page, file: FileOutcome)
    ensures Upload(num, Upload(num, p, file), file) == Upload(num, p, file)
  {
  }

  /** The user actions of the page. */
  datatype Event =
    | PickCatalog(c: Catalog)
    | FillRandom(draws: seq<real>)
    | SubmitForm(values: seq<Likert>, formCatalog: Catalog)
    | ClickRespondent(index: nat)
    | ClickAll
    | ClickRespondAsNew
    | UploadCsv(file: FileOutcome)
    | ClickTab(tab: Tab)

  /** An action is possible only when its control is on screen. */
  predicate Enabled(p: Page, e: Event)
    ensures Enabled(p, e) && (e.ClickRespondent? || e.ClickAll? || e.ClickRespondAsNew?) ==> |p.results| > 0
    ensures Enabled(p, e) && (e.PickCatalog? || e.UploadCsv?) ==> p.tab == ImportExport
    ensures Enabled(p, e) && (e.FillRandom? || e.SubmitForm? || e.ClickRespondent? || e.ClickAll? || e.ClickRespondAsNew?) ==>
      p.tab == Responses
  {
    match e
    case PickCatalog(c) => p.tab == ImportExport && c != p.catalog
    case UploadCsv(_) => p.tab == ImportExport
    case FillRandom(ds) => p.tab == Responses && |ds| == Size(p.catalog) && UnitDraws(ds)
    case SubmitForm(vs, fc) =>
      p.tab == Responses && |vs| == Size(fc) && (|p.results| == 0 || p.selected == NewRespondent)
    case ClickRespondent(i) => p.tab == Responses && i < |p.results|
    case ClickAll => p.tab == Responses && |p.results| > 1
    case ClickRespondAsNew => p.tab == Responses && |p.results| > 0
    case ClickTab(_) => true
  }

  /** One user action. */
  function Step(num: NumberParse, p: Page, e: Event): (q: Page)
    requires Enabled(p, e)
    ensures e.PickCatalog? || q.catalog == p.catalog
    ensures e.ClickTab? || q.tab == p.tab
    ensures (e.ClickRespondent? || e.ClickAll? || e.ClickRespondAsNew? || e.ClickTab?) ==>
      q.results == p.results && q.catalog == p.catalog && q.csvError == p.csvError
    ensures (e.FillRandom? || e.SubmitForm?) ==> |q.results| == |p.results| + 1 && q.results[..|p.results|] == p.results
    ensures e.ClickRespondent? ==> q.selected == Viewing(e.index)
    ensures e.ClickAll? ==> q.selected == AllRespondents
    ensures e.ClickRespondAsNew? ==> q.selected == NewRespondent
    ensures e.ClickTab? ==> q.tab == e.tab && q.selected == p.selected
  {
    match e
    case PickCatalog(c) => SwitchCatalog(p, c)
    case FillRandom(ds) => AddRandom(p, ds)
    case SubmitForm(vs, fc) => AddSubmitted(p, vs, fc)
    case ClickRespondent(i) => p.(selected := Viewing(i))
    case ClickAll => p.(selected := AllRespondents)
    case ClickRespondAsNew => p.(selected := NewRespondent)
    case UploadCsv(file) => Upload(num, p, file)
    case ClickTab(t) => p.(tab := t)
  }

  /** The catalog radio group reports only a change of value: picking the
      active catalog is no action, so it cannot empty the store. */
  lemma PickingActiveCatalogImpossible(p: Page)
    ensures !Enabled(p, PickCatalog(p.catalog))
    ensures p.tab == ImportExport ==> forall c :: c != p.catalog ==> Enabled(p, PickCatalog(c))
  {
  }

  /** Every action keeps the selection invariant. */
  lemma StepPreservesInv(num: NumberParse, p: Page, e: Event)
    requires Inv(p) && Enabled(p, e)
    ensures Inv(Step(num, p, e))
  {
  }

  /** A sequence of actions; `None` when one of them is not on screen. */
  function Run(num: NumberParse, p: Page, es: seq<Event>): Option<Page>
    decreases |es|
  {
    if |es| == 0 then Some(p)
    else if !Enabled(p, es[0]) then None
    else Run(num, Step(num, p, es[0]), es[1..])
  }

  /** Every page reachable by user actions keeps the selection invariant. */
  lemma {:induction false} RunPreservesInv(num: NumberParse, p: Page, es: seq<Event>)
    requires Inv(p) && Run(num, p, es).Some?
    ensures Inv(Run(num, p, es).value)
    decreases |es|
  {
    if |es| > 0 {
      StepPreservesInv(num, p, es[0]);
      RunPreservesInv(num, Step(num, p, es[0]), es[1..]);
    }
  }

  /** The main content of the page. */
  datatype Screen =
    | ImportPanel(error: Option<CsvError>)
    | FirstForm
    | RespondentChart(answers: seq<real>)
    | AverageChart(averages: seq<real>)
    | NewRespondentForm

  /** What the page shows. The lookup of the selected respondent is within
      bounds by the invariant. */
  function Render(p: Page): (s: Screen)
    requires Inv(p)
    ensures s.RespondentChart? ==>
      p.selected.Viewing? && p.selected.index < |p.results| && s.answers == p.results[p.selected.index].answers
    ensures s.AverageChart? ==> p.selected == AllRespondents && |p.results| > 0
    ensures (s.FirstForm? || s.NewRespondentForm?) <==>
      p.tab == Responses && (|p.results| == 0 || p.selected == NewRespondent)
  {
    if p.tab == ImportExport then ImportPanel(p.csvError)
    else if |p.results| == 0 then
      assert p.tab == Responses;
      FirstForm
    else
      match p.selected
      case Viewing(i) => RespondentChart(p.results[i].answers)
      case AllRespondents => AverageChart(Average(p.results, Size(p.catalog)))
      case NewRespondent =>
        assert p.tab == Responses && p.selected == NewRespondent;
        NewRespondentForm
  }

  /** Every page reachable from the first one can be rendered. */
  lemma ReachableRenders(num: NumberParse, es: seq<Event>)
    requires Run(num, Initial(), es).Some?
    ensures Inv(Run(num, Initial(), es).value)
  {
    RunPreservesInv(num, Initial(), es);
  }

  /** A form on screen accepts what a valid form submits. */
  lemma FormSubmitEnabled(p: Page, f: Form.FormState)
    requires Inv(p) && Form.Valid(f) && Form.Submit(f).Sent?
    requires Render(p).FirstForm? || Render(p).NewRespondentForm?
    ensures Enabled(p, SubmitForm(Form.Submit(f).values, Form.Submit(f).catalog))
  {
  }

  /** The form chooses its catalog on its own, so the store can hold answer
      vectors of different lengths: a short-form answer followed by a random
      fill of the full catalog. */
  lemma MixedLengthsReachable(num: NumberParse)
    ensures
      var four: Likert := 4;
      var es := [SubmitForm(Repeat(four, 10), Resumido), ClickRespondAsNew, FillRandom(Repeat(0.5, 28))];
      && Run(num, Initial(), es).Some?
      && |Run(num, Initial(), es).value.results| == 2
      && |Run(num, Initial(), es).value.results[0].answers| == 10
      && |Run(num, Initial(), es).value.results[1].answers| == 28
  {
    var four: Likert := 4;
    var es := [SubmitForm(Repeat(four, 10), Resumido), ClickRespondAsNew, FillRandom(Repeat(0.5, 28))];
    var p0 := Initial();
    var p1 := Step(num, p0, es[0]);
    var p2 := Step(num, p1, es[1]);
    var p3 := Step(num, p2, es[2]);
    assert es[1..][1..][1..] == [];
    assert Run(num, p0, es) == Run(num, p1, es[1..]);
    assert Run(num, p1, es[1..]) == Run(num, p2, es[1..][1..]);
    assert Run(num, p2, es[1..][1..]) == Run(num, p3, []);
  }
}

=== FILE: wrappers.dfy ===
/** An optional value and a success-or-error result shared by the model. */
module Wrappers {

  /** A value that may be absent. */
  datatype Option<+T> = None | Some(value: T)

  /** Either a value or an error. */
  datatype Result<+R, +E> = Success(value: R) | Failure(error: E)
}
